=== FILE: README.md ===
# minimal-mvt tile addressing, in Dafny

A model of the tile-address pipeline of `TileRequestHandler` in `minimal-mvt.py`,
a small HTTP server that answers `GET /{z}/{x}/{y}.{format}` with a Mapbox Vector
Tile cut from a PostGIS table. The model covers everything the handler computes
before it talks to the database, except the SQL text:

- **Parsing** (`TileAddress.PathToTile`). The path is matched against the anchored
  pattern `^\/(\d+)\/(\d+)\/(\d+)\.(\w+)`. The result is a tile record
  `{zoom, x, y, format}`, or None. The match is written as a greedy scan over
  character runs. It is proved equivalent, in both directions, to a declarative
  reading of the pattern (`Decomposes`). The pattern has no `$`, so text after the
  format's word characters is ignored.
- **Validation** (`TileAddress.TileIsValid`). The format must be `pbf` or `mvt`, and
  both coordinates must lie in `[0, 2^zoom)`. `2 ** zoom` is modelled as Python
  computes it: an exact integer for zoom >= 0, and a float for a negative zoom.
  That float is the exact fraction down to `2 ** -1074`, the smallest subnormal
  double. Below it, the float underflows to 0.0, and then no tile is valid.
- **Envelope** (`Mercator.TileToEnvelope`). This is the tile's bounding box in
  Spherical Mercator (EPSG:3857), with world half-width `W = 20037508.3427892`.
  Rows count downward from the top edge of the world, which inverts the y axis.
- **Densification segment** (`Mercator.EnvelopeToBounds`). The handler writes
  `segSize = (xmax - xmin) / 4` into the envelope.
- **Pixel affine** (`PixelAffine.ProjVariables`, `PixelAffine.ToPixel`). These are
  the `fx`, `fy`, `xoff` and `yoff` of the tile query's `proj_variables` step. The
  map `(x, y) -> (fx*x + xoff, fy*y + yoff)` sends the envelope onto the
  4096 x 4096 pixel grid. 4096 is the default layer extent of version 2.1 of the
  Mapbox Vector Tile specification, section 4.1.
- **Request handling** (`TileService.HandleTilePath`). A path that fails to parse or
  to validate gives the 400 error "invalid tile path". A valid tile above zoom 1023
  gets no response, because its envelope overflows. Otherwise the request goes on
  to the envelope, the segment and the affine of its query.

Python floats are modelled by Dafny's exact `real`. For zoom >= 0, Python's unbounded `2 ** zoom`
is modelled by a `nat`.

In three places the handler is looser than a tile server is usually described,
and the model keeps the handler's behaviour:

- The format group is `\w+` (letters, digits and `_`), not letters only.
- `tileIsValid` puts no upper bound on the zoom. `2 ** zoom` is an exact int, so a
  tile of zoom 1024 or more, such as `/1024/0/0.pbf`, is valid. `tileToEnvelope`
  then raises OverflowError (minimal-mvt.py:67), which escapes `do_GET`, and the
  request gets no response at all. The model returns the separate failure
  `EnvelopeOverflow` there, so no request is served above zoom 1023.
- Validation answers true or false. It does not return typed errors.

## Model

| member | source | states |
|---|---|---|
| `TileAddress.RunLength` | minimal-mvt.py:33 | what a greedy `\d+` or `\w+` consumes: the longest prefix of the class, all in the class, followed by the end or by a character outside it |
| `TileAddress.Decimal` | minimal-mvt.py:35-37 | the canonical numeral of a number is non-empty, all digits, and has no leading zero |
| `TileAddress.DecimalValue` | minimal-mvt.py:35-37 | `int()` of a digit run is 0 exactly when every digit is `0`; DecimalRoundTrip and LeadingZero pair it with the canonical numeral |
| `TileAddress.DecimalRoundTrip` | minimal-mvt.py:35-37 | `int()` of the canonical numeral of n is n |
| `TileAddress.LeadingZero` | minimal-mvt.py:35-37 | a leading zero does not change the value `int()` gives a digit run |
| `TileAddress.TakeDigits` | minimal-mvt.py:33 | one `(\d+)` group and its separator: a non-empty digit run, the separator, and the rest make up the input |
| `TileAddress.TakeFormat` | minimal-mvt.py:33 | the `(\w+)` group: a non-empty word run that the next character does not continue; None exactly when the text does not start with a word character |
| `TileAddress.PathToTile` | minimal-mvt.py:32-40 | a parsed tile has non-negative zoom, x and y, and a non-empty word-character format |
| `TileAddress.ParseComplete` | minimal-mvt.py:33-38 | a path of the pattern's shape, with any remainder that does not continue the format, parses to the decimal values of its three digit runs and to its format run |
| `TileAddress.ParseSound` | minimal-mvt.py:33-38 | every parsed tile comes from a decomposition of the path in the pattern's shape, with the values of its runs |
| `TileAddress.ParseNoneIff` | minimal-mvt.py:33-40 | the parse returns None exactly when no prefix of the path has the pattern's shape |
| `TileAddress.ParsePrintRoundTrip` | minimal-mvt.py:33-38 | `/dec(z)/dec(x)/dec(y).f` parses to exactly `{z, x, y, f}` for any naturals and non-empty word format |
| `TileAddress.ParseExample` | minimal-mvt.py:33-38 | `/1/1/0.pbf` parses to `{1, 1, 0, pbf}` |
| `TileAddress.ParseExampleExtension` | minimal-mvt.py:33-38 | `/1/1/0.pbf.gz` parses to format `pbf`: text after the format is ignored |
| `TileAddress.ParseExampleQuery` | minimal-mvt.py:33-38 | `/1/1/0.pbf?a=1` parses to format `pbf` |
| `TileAddress.ParseExampleLeadingZeros` | minimal-mvt.py:35-37 | `/01/001/0.mvt` parses to zoom 1, x 1 |
| `TileAddress.ParseExamplesRejected` | minimal-mvt.py:33-40 | a missing leading slash, a letter in a coordinate and an empty coordinate give None |
| `TileAddress.ParseExampleRejectedNoDot` | minimal-mvt.py:33-40 | a missing `.` before the format gives None |
| `TileAddress.ParseExampleRejectedNoFormat` | minimal-mvt.py:33-40 | an empty format after the `.` gives None |
| `TileAddress.Pow2` | minimal-mvt.py:50 | `2 ** zoom` for a natural zoom is at least 1 |
| `TileAddress.WorldTileSize` | minimal-mvt.py:50 | `2 ** zoom` is positive exactly when zoom >= -1074, and 0.0 (float underflow) below; it is at most one half for a negative zoom |
| `TileAddress.TileIsValid` | minimal-mvt.py:45-55 | an accepted tile has format `pbf` or `mvt`, non-negative x and y, and a zoom whose `2 ** zoom` has not underflowed; ValidIff and ValidNegativeZoom state the converse |
| `TileAddress.ValidIff` | minimal-mvt.py:45-55 | for zoom >= 0 a tile is valid iff its format is `pbf` or `mvt` and `0 <= x, y < 2^zoom` |
| `TileAddress.ValidNegativeZoom` | minimal-mvt.py:48-54 | for -1074 <= zoom < 0 a tile is valid iff its format is accepted and it is tile (0, 0); below -1074 no tile is valid, since `0 >= 0.0` rejects x = 0 |
| `TileAddress.ValidExamples` | minimal-mvt.py:45-55 | zoom 2 / x 4, format `png` and negative x or y are rejected; `1/1/0 pbf` and `2/3/3 mvt` are accepted |
| `Mercator.TileMercSize` | minimal-mvt.py:61-67 | for a zoom from -998 to 1023, where the side is a finite double, a tile side is positive, and 2^zoom of them span the world width 2W |
| `Mercator.TileToEnvelope` | minimal-mvt.py:59-76 | every envelope is a square whose side is the tile side at its zoom, so `xmin < xmax` and `ymin < ymax` |
| `Mercator.EnvelopeSize` | minimal-mvt.py:61-75 | every envelope is a square of side `2W / 2^zoom`, so `xmin < xmax` and `ymin < ymax` |
| `Mercator.AdjacentColumns` | minimal-mvt.py:72-75 | column x ends where column x+1 starts, on the same row band |
| `Mercator.AdjacentRows` | minimal-mvt.py:72-75 | row y's bottom is row y+1's top, on the same column band |
| `Mercator.TopLeftWorldEdges` | minimal-mvt.py:72-75 | row 0 touches the top edge `W`; column 0 touches the left edge `-W` |
| `Mercator.BottomRightWorldEdges` | minimal-mvt.py:72-75 | for zoom 0 to 1023, row `2^z - 1` touches the bottom edge `-W`; column `2^z - 1` touches the right edge `W` |
| `Mercator.RowWithinWorld` | minimal-mvt.py:72-75 | the n tiles of side m along one axis stay within `[-W, W]` when m times n spans the world |
| `Mercator.EnvelopeWithinWorld` | minimal-mvt.py:72-75 | the envelope of every valid tile of zoom 0 to 1023 lies inside `[-W, W]^2`, with non-empty extent |
| `Mercator.NegativeZoomLeavesWorld` | minimal-mvt.py:45-75 | tileIsValid accepts zoom -1 tile (0, 0), and its envelope reaches 3W, past the world |
| `Mercator.EnvelopeExample` | minimal-mvt.py:72-75 | tile `1/1/0` is the top-right quarter: `xmin 0, ymin 0, xmax W, ymax W` |
| `Mercator.EnvelopeToBounds` | minimal-mvt.py:82-84 | the bounds keep the four coordinates, and four segments make up the envelope's width |
| `Mercator.TileSegment` | minimal-mvt.py:83-84 | for a tile the segment is positive and divides both the width and the height into exactly four, and it equals `W / (2 * 2^zoom)` |
| `PixelAffine.ProjVariables` | minimal-mvt.py:134-142 | the affine is defined exactly when the envelope has non-zero width and height |
| `PixelAffine.ToPixel` | minimal-mvt.py:145 | with non-zero scales the point map loses nothing: the inverse map recovers the point |
| `PixelAffine.PixelRoundTrip` | minimal-mvt.py:145 | the point map of `st_affine(geom, fx, 0, 0, fy, xoff, yoff)` undoes the inverse map; with ToPixel's contract the two are inverse bijections |
| `PixelAffine.AffineScale` | minimal-mvt.py:138-139 | for a proper envelope `fx > 0` and `fy < 0`, and `fx * width == 4096 == -fy * height` |
| `PixelAffine.ScaleOnto` | minimal-mvt.py:138-141 | a positive scale that takes w to 4096 takes [0, w] exactly onto [0, 4096] |
| `PixelAffine.AffineCorners` | minimal-mvt.py:135-145 | top-left `(xmin, ymax)` goes to pixel (0, 0), bottom-right `(xmax, ymin)` to (4096, 4096), and the other two corners to (0, 4096) and (4096, 0) |
| `PixelAffine.AffineOntoGrid` | minimal-mvt.py:135-145 | a point lies in the envelope iff its pixel lies in `[0, 4096]^2` |
| `PixelAffine.AffineFlipsVertical` | minimal-mvt.py:139-145 | a point further north lands on a smaller pixel row |
| `TileService.HandleTilePath` | minimal-mvt.py:180-186 | a request fails, naming the path, iff the path does not parse, the tile is invalid, or the zoom is above 1023; the failure is "invalid tile path" exactly in the first two cases, and an envelope overflow with no response in the third; a served request carries the parsed tile |
| `TileService.ServedQueryGeometry` | minimal-mvt.py:180-186 | a served request's envelope is the tile's envelope inside the world, its segment is a positive quarter of the width, and its affine flips y and maps the corners onto the pixel grid's corners |
| `TileService.TilePixelScale` | minimal-mvt.py:134-141 | for a tile of zoom 0 to 1023, `fx == -fy == 4096 * 2^zoom / 2W`, and one densify segment spans 1024 pixels |
| `TileService.ServeRoundTrip` | minimal-mvt.py:180-185 | a canonical path gets "invalid tile path" iff its format is not accepted or `x` or `y` is not below `2^zoom`; it is served iff it is valid and its zoom is at most 1023, and then with exactly that tile |
| `TileService.ServeOverflow` | minimal-mvt.py:50-67 | for every zoom above 1023, tile (0, 0) in an accepted format passes `tileIsValid`, yet the request fails with an envelope overflow |
| `TileService.ServeExample` | minimal-mvt.py:180-185 | `/1/1/0.pbf` is served with envelope `(0, 0, W, W)` |
| `TileService.ServeRejectsOutside` | minimal-mvt.py:180-183 | `/2/4/0.pbf` is rejected with "invalid tile path" |
| `TileService.ServeRejectsFormat` | minimal-mvt.py:180-183 | `/1/0/0.png` is rejected with "invalid tile path" |

## Left out

- Floating point: every coordinate is an exact real. The IEEE-754 rounding of `W`, of `tileMercSize * x` and of the affine coefficients is not modelled. The OverflowError of `tileToEnvelope` is modelled: it happens for exactly zoom >= 1024, where the division at minimal-mvt.py:67 cannot convert `2 ** zoom` to a float (`TileService.HandleTilePath`).
- Unicode: `\d`, `\w` and `int()` are modelled on ASCII only. Python 3 also accepts non-ASCII digits and letters there.
- Key presence in `tileIsValid` (minimal-mvt.py:46-48): the tile is a record whose four fields always exist, as they do for every dict that `pathToTile` builds.
- The SQL text built by `envelopeToBoundsSQL`, `envelopeToSQL` and `envelopeToSQL2` is not modelled. Its meaning lies in PostGIS and MobilityDB functions: `ST_Segmentize`, `ST_Transform`, `ST_AsMVT`, `atGeometry` and `ST_SnapToGrid`. Only the arithmetic of `segSize` and of `proj_variables` is modelled. The model takes the extent of the segmentized bounds geometry to be the envelope itself. It reads `st_affine` as its 6-coefficient form. The `LIMIT 5` feature cap is not modelled. `envelopeToSQL` also fails on the empty `TABLE` configuration.
- `PixelAffine.ProjVariables`: the database's division-by-zero error on a flat envelope becomes None. In exact arithmetic no tile envelope is flat (`Mercator.TileToEnvelope`). In doubles, flat envelopes have two causes. First, a tile side below the spacing of doubles near the products `tileMercSize * x` rounds away. That spacing is 2^-27 near 2W. From zoom 53 on, this makes widths near the right edge and heights near the bottom edge zero. For example, `/53/9007199254740990/0.pbf` has xmin == xmax. Second, once x or y is at least 2^53, `x + 1` at minimal-mvt.py:73-74 often converts to the same double as `x`. Above zoom 53 this spreads flat envelopes to most tiles. For example, the centre tile `/60/576460752303423488/576460752303423488.pbf` has all four bounds equal to 0.0. For every such tile, the division at minimal-mvt.py:138-139 fails in the database, and the model does not capture that failure.
- `TileService.HandleTilePath`: a served request carries a defined affine for every valid tile up to zoom 1023. In doubles, the flat envelopes of zoom 53 and above make the database's division by zero fail instead; see the `PixelAffine.ProjVariables` line.
- `TileService.ServeRoundTrip`: "served" for every valid canonical path up to zoom 1023 assumes a non-flat envelope. In doubles, from zoom 53 on, many tiles get a flat envelope and fail in the database instead.
- `Mercator.TileMercSize`: requires a zoom from -998 to 1023. From -1074 to -999, the quotient at minimal-mvt.py:67 exceeds the largest double, and Python's side is `inf`, not a finite real.
- `Mercator.TileToEnvelope`: requires a zoom from -998 to 1023. From -1074 to -999, `tileMercSize` is `inf`. `tileIsValid` still accepts tile (0, 0) there, and its envelope is `(xmin, ymin, xmax, ymax) = (nan, -inf, inf, nan)`. Below -1074, `2 ** zoom` underflows to 0.0, and Python raises ZeroDivisionError in `tileToEnvelope`. No request reaches any of these zooms, because a parsed zoom is never negative. Above the range, Python raises OverflowError. `TileService.HandleTilePath` models that as its `EnvelopeOverflow` failure.
- `TileAddress.PathToTile`: numerals of any length are read. Python 3.11 and later limit `int()` to 4300 digits by default. A longer coordinate raises ValueError inside `pathToTile`, and `do_GET` fails instead of answering. That error path is not modelled.
- `TileService.HandleTilePath`: a coordinate numeral longer than 4300 digits makes `int()` raise ValueError in Python 3.11 and later. `do_GET` then neither rejects nor serves the request. The model parses the path and then rejects or serves it.
- `TileService.ServeRoundTrip`: it holds for every natural, including numbers whose numerals are longer than 4300 digits. For those, Python 3.11 and later raise ValueError in `pathToTile`, and the request gets no response.
- `TileAddress.ParsePrintRoundTrip`: it holds for every natural, which includes numbers whose numerals are longer than 4300 digits. For those, Python 3.11 and later raise ValueError instead of returning the tile.
- `sqlToPbf` and its lazily created `DATABASE_CONNECTION` are not modelled. They are a foreign call to the database driver and shared connection state.
- The HTTP side of `do_GET` is not modelled: the response status, the headers and the body write. Nor is the server loop at minimal-mvt.py:203-211.
- The `log_message` calls are a logging side channel and are not modelled.

=== FILE: mercator.dfy ===
/**
  Tile envelopes in Spherical Mercator (EPSG:3857): TileRequestHandler.tileToEnvelope,
  and the densification segment that envelopeToBoundsSQL adds to the envelope.
  Python floats are modelled by exact reals.
 */
module Mercator {
  import opened TileAddress

  /** Half the width of the world in EPSG:3857. */
  const WorldMercMax: real := 20037508.3427892
  const WorldMercMin: real := -1.0 * WorldMercMax
  const WorldMercSize: real := WorldMercMax - WorldMercMin

  /** The bounding box of one tile, as the dict tileToEnvelope returns. */
  datatype Envelope = Envelope(xmin: real, ymin: real, xmax: real, ymax: real)

  /** The largest power of two a double holds: 2 ** 1024 is an int too large to convert to float. */
  const LargestFloatExponent: int := 1023

  /**
    The smallest zoom whose tile side is a finite double: at zoom -999 the quotient
    2W / 2 ** -999 exceeds the largest double and is inf.
   */
  const SmallestFiniteSideZoom: int := -998

  /**
    The zooms at which tileToEnvelope returns a finite envelope. Below them the side
    is inf (down to the smallest float exponent) or the division raises
    ZeroDivisionError, 2 ** zoom being 0.0; above them, 2 ** zoom is an int that the
    division cannot convert to a float, and it raises OverflowError.
   */
  predicate EnvelopeDefined(zoom: int) {
    SmallestFiniteSideZoom <= zoom <= LargestFloatExponent
  }

  /** Width (and height) of one tile at `zoom`, in EPSG:3857 units. */
  function TileMercSize(zoom: int): (r: real)
    requires EnvelopeDefined(zoom)
    ensures r > 0.0
    ensures r * WorldTileSize(zoom) == WorldMercSize
  {
    WorldMercSize / WorldTileSize(zoom)
  }

  /**
    tileToEnvelope: x counts tiles from the left edge of the world, y counts tiles
    down from the top edge ("image space"), so the y axis is inverted.
   */
  function TileToEnvelope(t: Tile): (e: Envelope)
    requires EnvelopeDefined(t.zoom)
    ensures e.xmax - e.xmin == TileMercSize(t.zoom) && e.ymax - e.ymin == TileMercSize(t.zoom)
    ensures e.xmin < e.xmax && e.ymin < e.ymax
  {
    var tileMercSize := TileMercSize(t.zoom);
    assert tileMercSize * ((t.x + 1) as real) == tileMercSize * (t.x as real) + tileMercSize;
    assert tileMercSize * ((t.y + 1) as real) == tileMercSize * (t.y as real) + tileMercSize;
    Envelope(
      WorldMercMin + tileMercSize * (t.x as real),
      WorldMercMax - tileMercSize * ((t.y + 1) as real),
      WorldMercMin + tileMercSize * ((t.x + 1) as real),
      WorldMercMax - tileMercSize * (t.y as real))
  }

  /** Every envelope is a square whose side is the world width divided by 2^zoom. */
  lemma EnvelopeSize(t: Tile)
    requires EnvelopeDefined(t.zoom)
    ensures var e := TileToEnvelope(t);
            e.xmax - e.xmin == e.ymax - e.ymin == WorldMercSize / WorldTileSize(t.zoom)
    ensures var e := TileToEnvelope(t);
            e.xmin < e.xmax && e.ymin < e.ymax
    ensures t.zoom >= 0 ==>
            var e := TileToEnvelope(t);
            e.xmax - e.xmin == 2.0 * WorldMercMax / (Pow2(t.zoom) as real)
  {
    var m := TileMercSize(t.zoom);
    assert m * ((t.x + 1) as real) == m * (t.x as real) + m;
    assert m * ((t.y + 1) as real) == m * (t.y as real) + m;
  }

  /** Horizontally neighbouring tiles share an edge: no gap and no overlap. */
  lemma AdjacentColumns(zoom: int, x: int, y: int, format: string)
    requires EnvelopeDefined(zoom)
    ensures var left := TileToEnvelope(Tile(zoom, x, y, format));
            var right := TileToEnvelope(Tile(zoom, x + 1, y, format));
            left.xmax == right.xmin && left.ymin == right.ymin && left.ymax == right.ymax
  {
  }

  /** Vertically neighbouring tiles share an edge; row y + 1 lies below row y. */
  lemma AdjacentRows(zoom: int, x: int, y: int, format: string)
    requires EnvelopeDefined(zoom)
    ensures var upper := TileToEnvelope(Tile(zoom, x, y, format));
            var lower := TileToEnvelope(Tile(zoom, x, y + 1, format));
            upper.ymin == lower.ymax && upper.xmin == lower.xmin && upper.xmax == lower.xmax
  {
  }

  /** The first row and column touch the top and left edges of the world. */
  lemma TopLeftWorldEdges(t: Tile)
    requires EnvelopeDefined(t.zoom)
    ensures t.y == 0 ==> TileToEnvelope(t).ymax == WorldMercMax
    ensures t.x == 0 ==> TileToEnvelope(t).xmin == -WorldMercMax
  {
  }

  /** The last row and column touch the bottom and right edges of the world. */
  lemma BottomRightWorldEdges(t: Tile)
    requires 0 <= t.zoom <= LargestFloatExponent
    ensures t.y == Pow2(t.zoom) - 1 ==> TileToEnvelope(t).ymin == -WorldMercMax
    ensures t.x == Pow2(t.zoom) - 1 ==> TileToEnvelope(t).xmax == WorldMercMax
  {
    var m, k := TileMercSize(t.zoom), Pow2(t.zoom);
    assert WorldTileSize(t.zoom) == k as real;
    assert m * (k as real) == WorldMercSize;
    if t.y == k - 1 {
      assert (t.y + 1) as real == k as real;
      assert TileToEnvelope(t).ymin == WorldMercMax - m * (k as real);
    }
    if t.x == k - 1 {
      assert (t.x + 1) as real == k as real;
      assert TileToEnvelope(t).xmax == WorldMercMin + m * (k as real);
    }
  }

  /** Tiles 0 .. n-1 of side m, laid from -W, stay within [-W, W] when m * n spans the world. */
  lemma RowWithinWorld(m: real, n: real, i: real)
    requires m > 0.0 && 0.0 <= i && i + 1.0 <= n && m * n == WorldMercSize
    ensures -WorldMercMax <= WorldMercMin + m * i < WorldMercMin + m * (i + 1.0) <= WorldMercMax
    ensures -WorldMercMax <= WorldMercMax - m * (i + 1.0) < WorldMercMax - m * i <= WorldMercMax
  {
    assert m * (i + 1.0) == m * i + m;
    assert m * (n - (i + 1.0)) >= 0.0;
    assert m * i >= 0.0;
  }

  /** Proof step of EnvelopeWithinWorld: a valid tile is a cell of the 2^zoom x 2^zoom grid, counted in reals. */
  lemma ValidCell(t: Tile)
    requires TileIsValid(t) && t.zoom >= 0
    ensures 0.0 <= t.x as real && t.x as real + 1.0 <= WorldTileSize(t.zoom)
    ensures 0.0 <= t.y as real && t.y as real + 1.0 <= WorldTileSize(t.zoom)
  {
    var k := Pow2(t.zoom);
    assert WorldTileSize(t.zoom) == k as real;
    ValidIff(t);
  }

  /** Proof step of EnvelopeWithinWorld: cell (i, j) of an n x n grid of side m spanning the world lies in it. */
  lemma CellWithinWorld(m: real, n: real, i: real, j: real, e: Envelope)
    requires m > 0.0 && m * n == WorldMercSize
    requires 0.0 <= i && i + 1.0 <= n && 0.0 <= j && j + 1.0 <= n
    requires e.xmin == WorldMercMin + m * i && e.xmax == WorldMercMin + m * (i + 1.0)
    requires e.ymin == WorldMercMax - m * (j + 1.0) && e.ymax == WorldMercMax - m * j
    ensures -WorldMercMax <= e.xmin < e.xmax <= WorldMercMax
    ensures -WorldMercMax <= e.ymin < e.ymax <= WorldMercMax
  {
    RowWithinWorld(m, n, i);
    RowWithinWorld(m, n, j);
  }

  /**
    Proof step of EnvelopeWithinWorld: the envelope's four bounds, each as an offset
    of a tile count from a world edge, with the casts moved out of the sums.
   */
  lemma EnvelopeBounds(t: Tile)
    requires EnvelopeDefined(t.zoom)
    ensures var m, e := TileMercSize(t.zoom), TileToEnvelope(t);
            e.xmin == WorldMercMin + m * (t.x as real) &&
            e.xmax == WorldMercMin + m * (t.x as real + 1.0) &&
            e.ymin == WorldMercMax - m * (t.y as real + 1.0) &&
            e.ymax == WorldMercMax - m * (t.y as real)
  {
  }

  /** The envelope of every valid tile at a zoom from 0 to 1023 lies inside the world square. */
  lemma EnvelopeWithinWorld(t: Tile)
    requires TileIsValid(t) && 0 <= t.zoom <= LargestFloatExponent
    ensures var e := TileToEnvelope(t);
            -WorldMercMax <= e.xmin < e.xmax <= WorldMercMax &&
            -WorldMercMax <= e.ymin < e.ymax <= WorldMercMax
  {
    var m, n := TileMercSize(t.zoom), WorldTileSize(t.zoom);
    ValidCell(t);
    EnvelopeBounds(t);
    CellWithinWorld(m, n, t.x as real, t.y as real, TileToEnvelope(t));
  }

  /**
    A negative zoom, which no request path can produce, passes tileIsValid for the
    tile (0, 0), and its envelope reaches beyond the world.
   */
  lemma NegativeZoomLeavesWorld(t: Tile)
    requires t == Tile(-1, 0, 0, "pbf")
    ensures TileIsValid(t)
    ensures TileToEnvelope(t).xmax == 3.0 * WorldMercMax
  {
    assert WorldTileSize(-1) == 0.5;
  }

  /** The path /1/1/0.pbf names the top-right quarter of the world. */
  lemma EnvelopeExample(t: Tile)
    requires t == Tile(1, 1, 0, "pbf")
    ensures TileToEnvelope(t) == Envelope(0.0, 0.0, WorldMercMax, WorldMercMax)
  {
    assert WorldTileSize(1) == 2.0;
  }

  // ---------------------------------------------------------------------------
  // Densification segment (envelopeToBoundsSQL)
  // ---------------------------------------------------------------------------

  const DensifyFactor: real := 4.0

  /** The envelope dict after envelopeToBoundsSQL has written its 'segSize' key. */
  datatype Bounds = Bounds(env: Envelope, segSize: real)

  /**
    envelopeToBoundsSQL's update of its argument: the four bounds are kept and the
    maximum segment length for densifying the boundary is added.
   */
  function EnvelopeToBounds(env: Envelope): (b: Bounds)
    ensures b.env == env
    ensures b.segSize * DensifyFactor == env.xmax - env.xmin
  {
    Bounds(env, (env.xmax - env.xmin) / DensifyFactor)
  }

  /**
    For a tile, the segment is positive and cuts each side of the square envelope,
    horizontal and vertical, into exactly DensifyFactor pieces.
   */
  lemma TileSegment(t: Tile)
    requires EnvelopeDefined(t.zoom)
    ensures var b := EnvelopeToBounds(TileToEnvelope(t));
            b.segSize > 0.0 &&
            b.segSize * DensifyFactor == b.env.xmax - b.env.xmin &&
            b.segSize * DensifyFactor == b.env.ymax - b.env.ymin
    ensures t.zoom >= 0 ==>
            EnvelopeToBounds(TileToEnvelope(t)).segSize == WorldMercMax / (2.0 * (Pow2(t.zoom) as real))
  {
    EnvelopeSize(t);
  }
}

=== FILE: pixel_affine.dfy ===
/**
  The affine map of the tile query's proj_variables step (envelopeToSQL2): scale and
  offsets that take EPSG:3857 coordinates inside an envelope to the tile's pixel grid
  of Extent x Extent units, with the vertical axis flipped.
 */
module PixelAffine {
  import opened Wrappers
  import opened Mercator

  /** The pixel-grid resolution of a tile (the default layer extent of vector tiles). */
  const Extent: real := 4096.0

  /** A point, in EPSG:3857 or in tile pixels. */
  datatype Point = Point(x: real, y: real)

  /** The coefficients fx, fy, xoff, yoff of proj_variables. */
  datatype Affine = Affine(fx: real, fy: real, xoff: real, yoff: real)

  /**
    proj_variables, computed from the bounds geometry (whose extent is the envelope).
    None stands for the database's division-by-zero error on a flat envelope.
   */
  function ProjVariables(b: Envelope): (r: Option<Affine>)
    ensures r.Some? <==> b.xmax - b.xmin != 0.0 && b.ymax - b.ymin != 0.0
  {
    var width := b.xmax - b.xmin;
    var height := b.ymax - b.ymin;
    if width == 0.0 || height == 0.0 then None
    else
      var fx := Extent / width;
      var fy := -Extent / height;
      Some(Affine(fx, fy, -b.xmin * fx, -b.ymax * fy))
  }

  /**
    st_affine(geom, fx, 0, 0, fy, xoff, yoff) applied to one point; with non-zero
    scales no information is lost, FromPixel recovers the point.
   */
  function ToPixel(a: Affine, p: Point): (r: Point)
    ensures a.fx != 0.0 && a.fy != 0.0 ==> FromPixel(a, r) == p
  {
    var r := Point(a.fx * p.x + 0.0 * p.y + a.xoff, 0.0 * p.x + a.fy * p.y + a.yoff);
    if a.fx != 0.0 && a.fy != 0.0 then
      assert 0.0 * p.x == 0.0 && 0.0 * p.y == 0.0;
      DivCancels(p.x, a.fx);
      DivCancels(p.y, a.fy);
      r
    else r
  }

  /** The inverse map, from pixel coordinates back to EPSG:3857. */
  function FromPixel(a: Affine, q: Point): Point
    requires a.fx != 0.0 && a.fy != 0.0
  {
    Point((q.x - a.xoff) / a.fx, (q.y - a.yoff) / a.fy)
  }

  /** Proof step of ToPixel and PixelRoundTrip: multiplying and dividing by f cancel. */
  lemma DivCancels(d: real, f: real)
    requires f != 0.0
    ensures f * (d / f) == d && (f * d) / f == d
  {
  }

  /**
    Mapping from pixels back to the map and then to pixels again is the identity;
    with ToPixel's own contract, the two maps are inverse bijections.
   */
  lemma PixelRoundTrip(a: Affine, q: Point)
    requires a.fx != 0.0 && a.fy != 0.0
    ensures ToPixel(a, FromPixel(a, q)) == q
  {
    var r := FromPixel(a, q);
    assert 0.0 * r.x == 0.0 && 0.0 * r.y == 0.0;
    DivCancels(q.x - a.xoff, a.fx);
    DivCancels(q.y - a.yoff, a.fy);
  }

  /** A positive scale f with f * w == Extent takes [0, w] exactly onto [0, Extent]. */
  lemma ScaleOnto(f: real, w: real, d: real)
    requires f > 0.0 && f * w == Extent
    ensures 0.0 <= f * d <= Extent <==> 0.0 <= d <= w
  {
    assert f * w - f * d == f * (w - d);
  }

  /** The scale factors of a proper envelope: fx positive, fy negative (the y axis flips). */
  lemma AffineScale(b: Envelope)
    requires b.xmin < b.xmax && b.ymin < b.ymax
    ensures var a := ProjVariables(b).value;
            a.fx > 0.0 && a.fy < 0.0 &&
            a.fx * (b.xmax - b.xmin) == Extent && a.fy * (b.ymax - b.ymin) == -Extent
  {
  }

  /** The affine map takes the top-left corner to pixel (0, 0) and the bottom-right one to (Extent, Extent). */
  lemma AffineCorners(b: Envelope)
    requires b.xmin < b.xmax && b.ymin < b.ymax
    ensures var a := ProjVariables(b).value;
            ToPixel(a, Point(b.xmin, b.ymax)) == Point(0.0, 0.0) &&
            ToPixel(a, Point(b.xmax, b.ymin)) == Point(Extent, Extent) &&
            ToPixel(a, Point(b.xmin, b.ymin)) == Point(0.0, Extent) &&
            ToPixel(a, Point(b.xmax, b.ymax)) == Point(Extent, 0.0)
  {
    var a := ProjVariables(b).value;
    AffineScale(b);
    assert a.xoff == -b.xmin * a.fx && a.yoff == -b.ymax * a.fy;
    assert a.fx * b.xmin + a.xoff == 0.0;
    assert a.fy * b.ymax + a.yoff == 0.0;
    assert a.fx * b.xmax + a.xoff == a.fx * (b.xmax - b.xmin);
    assert a.fy * b.ymin + a.yoff == -a.fy * (b.ymax - b.ymin) == Extent;
    assert 0.0 * b.xmin == 0.0 && 0.0 * b.xmax == 0.0 && 0.0 * b.ymin == 0.0 && 0.0 * b.ymax == 0.0;
  }

  /** A point lies in the envelope exactly when its pixel lies in the grid [0, Extent]^2. */
  lemma AffineOntoGrid(b: Envelope, p: Point)
    requires b.xmin < b.xmax && b.ymin < b.ymax
    ensures var q := ToPixel(ProjVariables(b).value, p);
            (b.xmin <= p.x <= b.xmax && b.ymin <= p.y <= b.ymax) <==>
            (0.0 <= q.x <= Extent && 0.0 <= q.y <= Extent)
  {
    var a := ProjVariables(b).value;
    var q := ToPixel(a, p);
    AffineScale(b);
    assert a.xoff == -b.xmin * a.fx && a.yoff == -b.ymax * a.fy;
    assert q.x == a.fx * (p.x - b.xmin);
    assert q.y == -a.fy * (b.ymax - p.y);
    ScaleOnto(a.fx, b.xmax - b.xmin, p.x - b.xmin);
    ScaleOnto(-a.fy, b.ymax - b.ymin, b.ymax - p.y);
  }

  /** Northward in the map is upward in the tile: a larger y gives a smaller pixel row. */
  lemma AffineFlipsVertical(b: Envelope, p: Point, p': Point)
    requires b.xmin < b.xmax && b.ymin < b.ymax
    requires p.y < p'.y
    ensures ToPixel(ProjVariables(b).value, p).y > ToPixel(ProjVariables(b).value, p').y
  {
    var a := ProjVariables(b).value;
    AffineScale(b);
    assert a.fy * p'.y - a.fy * p.y == a.fy * (p'.y - p.y);
  }
}

=== FILE: tile_address.dfy ===
/**
  The tile address of a request: parsing a request path of the shape
  `/{z}/{x}/{y}.{format}` (TileRequestHandler.pathToTile) and checking that the
  address lies inside the tile pyramid (TileRequestHandler.tileIsValid).
 */
module TileAddress {
  import opened Wrappers

  /** The record pathToTile builds: the keys zoom, x, y and format. */
  datatype Tile = Tile(zoom: int, x: int, y: int, format: string)

  // ---------------------------------------------------------------------------
  // Character classes of the regular expression (ASCII only)
  // ---------------------------------------------------------------------------

  /** `\d` */
  predicate IsDigit(c: char) {
    '0' <= c <= '9'
  }

  /** `\w`: letters, digits and the underscore */
  predicate IsWordChar(c: char) {
    'a' <= c <= 'z' || 'A' <= c <= 'Z' || IsDigit(c) || c == '_'
  }

  datatype CharClass = Digit | Word

  predicate InClass(c: char, k: CharClass) {
    match k
    case Digit => IsDigit(c)
    case Word => IsWordChar(c)
  }

  predicate AllIn(s: string, k: CharClass) {
    forall i :: 0 <= i < |s| ==> InClass(s[i], k)
  }

  /** Length of the longest prefix of `s` drawn from class `k`: what a greedy `\d+` or `\w+` consumes. */
  function RunLength(s: string, k: CharClass): (n: nat)
    ensures n <= |s|
    ensures AllIn(s[..n], k)
    ensures n == |s| || !InClass(s[n], k)
  {
    if s != [] && InClass(s[0], k) then
      var n := 1 + RunLength(s[1..], k);
      assert s[..n] == [s[0]] + s[1..][..n - 1];
      n
    else
      0
  }

  /** The greedy run of a class is exactly a maximal run placed in front of the rest. */
  lemma {:induction false} RunLengthOf(run: string, rest: string, k: CharClass)
    requires AllIn(run, k)
    requires rest == [] || !InClass(rest[0], k)
    ensures RunLength(run + rest, k) == |run|
  {
    if run != [] {
      assert (run + rest)[0] == run[0];
      assert (run + rest)[1..] == run[1..] + rest;
      RunLengthOf(run[1..], rest, k);
    } else {
      assert run + rest == rest;
    }
  }

  // ---------------------------------------------------------------------------
  // Decimal numerals: Python's int() on an ASCII digit string, and its inverse
  // ---------------------------------------------------------------------------

  function DigitValue(c: char): (d: nat)
    requires IsDigit(c)
    ensures d < 10
  {
    (c as int) - ('0' as int)
  }

  function DigitChar(d: nat): (c: char)
    requires d < 10
    ensures IsDigit(c) && DigitValue(c) == d
  {
    (('0' as int) + d) as char
  }

  /** The value of a run of decimal digits; leading zeros are allowed, as with int(). */
  function DecimalValue(s: string): (v: nat)
    requires AllIn(s, Digit)
    ensures v == 0 <==> forall i :: 0 <= i < |s| ==> s[i] == '0'
  {
    if s == [] then 0
    else
      var init := s[..|s| - 1];
      assert forall i :: 0 <= i < |init| ==> init[i] == s[i];
      DecimalValue(init) * 10 + DigitValue(s[|s| - 1])
  }

  /** The canonical decimal numeral of `n`: non-empty, digits only, no leading zero. */
  function Decimal(n: nat): (s: string)
    ensures |s| > 0 && AllIn(s, Digit)
    ensures |s| > 1 ==> s[0] != '0'
  {
    if n < 10 then [DigitChar(n)] else Decimal(n / 10) + [DigitChar(n % 10)]
  }

  lemma {:induction false} DecimalRoundTrip(n: nat)
    ensures DecimalValue(Decimal(n)) == n
  {
    if n >= 10 {
      var s := Decimal(n);
      assert s[..|s| - 1] == Decimal(n / 10);
      DecimalRoundTrip(n / 10);
    }
  }

  /** A leading zero does not change the value of a numeral. */
  lemma {:induction false} LeadingZero(s: string)
    requires AllIn(s, Digit)
    ensures AllIn(['0'] + s, Digit) && DecimalValue(['0'] + s) == DecimalValue(s)
  {
    var t := ['0'] + s;
    assert AllIn(t, Digit);
    if s != [] {
      assert t[..|t| - 1] == ['0'] + s[..|s| - 1];
      LeadingZero(s[..|s| - 1]);
    }
  }

  // ---------------------------------------------------------------------------
  // pathToTile
  // ---------------------------------------------------------------------------

  /**
    One `(\d+)` group followed by the separator `sep`: the digits and what follows
    the separator, or None when the text does not start that way.
   */
  function TakeDigits(s: string, sep: char): (r: Option<(string, string)>)
    ensures r.Some? ==> |r.value.0| > 0 && AllIn(r.value.0, Digit) && s == r.value.0 + [sep] + r.value.1
  {
    var n := RunLength(s, Digit);
    if 0 < n < |s| && s[n] == sep then
      assert s == s[..n] + [sep] + s[n + 1..];
      Some((s[..n], s[n + 1..]))
    else
      None
  }

  /** The `(\w+)` group: the longest non-empty run of word characters and what follows it, or None. */
  function TakeFormat(s: string): (r: Option<(string, string)>)
    ensures r.Some? ==> |r.value.0| > 0 && AllIn(r.value.0, Word) && s == r.value.0 + r.value.1
    ensures r.Some? ==> r.value.1 == [] || !IsWordChar(r.value.1[0])
    ensures r.None? <==> s == [] || !IsWordChar(s[0])
  {
    var n := RunLength(s, Word);
    if n == 0 then None
    else
      assert s == s[..n] + s[n..];
      Some((s[..n], s[n..]))
  }

  /**
    pathToTile: match `^\/(\d+)\/(\d+)\/(\d+)\.(\w+)` at the start of the path.
    There is no `$`, so whatever follows the format's word characters is ignored.
   */
  function PathToTile(path: string): (r: Option<Tile>)
    ensures r.Some? ==> r.value.zoom >= 0 && r.value.x >= 0 && r.value.y >= 0
    ensures r.Some? ==> |r.value.format| > 0 && AllIn(r.value.format, Word)
  {
    if path == [] || path[0] != '/' then None
    else
      match TakeDigits(path[1..], '/')
      case None => None
      case Some((zs, s1)) =>
        match TakeDigits(s1, '/')
        case None => None
        case Some((xs, s2)) =>
          match TakeDigits(s2, '.')
          case None => None
          case Some((ys, s3)) =>
            match TakeFormat(s3)
            case None => None
            case Some((format, _)) =>
              Some(Tile(DecimalValue(zs), DecimalValue(xs), DecimalValue(ys), format))
  }

  /**
    The declarative reading of the pattern: `path` is a slash, three non-empty digit
    runs separated by '/', '/' and '.', a non-empty word run, and a remainder that
    does not continue the word run (the `\w+` group is greedy).
   */
  ghost predicate Decomposes(path: string, zs: string, xs: string, ys: string, fs: string, rest: string) {
    && |zs| > 0 && AllIn(zs, Digit)
    && |xs| > 0 && AllIn(xs, Digit)
    && |ys| > 0 && AllIn(ys, Digit)
    && |fs| > 0 && AllIn(fs, Word)
    && (rest == [] || !IsWordChar(rest[0]))
    && path == "/" + zs + "/" + xs + "/" + ys + "." + fs + rest
  }

  lemma TakeDigitsOf(ds: string, sep: char, rest: string)
    requires |ds| > 0 && AllIn(ds, Digit) && !IsDigit(sep)
    ensures TakeDigits(ds + [sep] + rest, sep) == Some((ds, rest))
  {
    var s := ds + [sep] + rest;
    RunLengthOf(ds, [sep] + rest, Digit);
    assert s == ds + ([sep] + rest);
    assert s[..|ds|] == ds;
    assert s[|ds| + 1..] == rest;
  }

  lemma TakeFormatOf(fs: string, rest: string)
    requires |fs| > 0 && AllIn(fs, Word)
    requires rest == [] || !IsWordChar(rest[0])
    ensures TakeFormat(fs + rest) == Some((fs, rest))
  {
    RunLengthOf(fs, rest, Word);
    assert (fs + rest)[..|fs|] == fs;
    assert (fs + rest)[|fs|..] == rest;
  }

  /** Parse success: a path of the pattern's shape yields the decimal values of its digit runs and the format run. */
  lemma ParseComplete(path: string, zs: string, xs: string, ys: string, fs: string, rest: string)
    requires Decomposes(path, zs, xs, ys, fs, rest)
    ensures PathToTile(path) == Some(Tile(DecimalValue(zs), DecimalValue(xs), DecimalValue(ys), fs))
  {
    var s3 := fs + rest;
    var s2 := ys + ['.'] + s3;
    var s1 := xs + ['/'] + s2;
    assert path[1..] == zs + ['/'] + s1;
    TakeDigitsOf(zs, '/', s1);
    TakeDigitsOf(xs, '/', s2);
    TakeDigitsOf(ys, '.', s3);
    TakeFormatOf(fs, rest);
  }

  /** Reassembles a path from the pieces the scan of PathToTile splits it into. */
  lemma Reassemble(path: string, zs: string, xs: string, ys: string, fs: string, rest: string)
    requires |path| > 0 && path[0] == '/'
    requires path[1..] == zs + ['/'] + (xs + ['/'] + (ys + ['.'] + (fs + rest)))
    ensures path == "/" + zs + "/" + xs + "/" + ys + "." + fs + rest
  {
    assert path == ['/'] + path[1..];
  }

  /** Parse soundness: every parsed tile comes from a path of the pattern's shape. */
  lemma ParseSound(path: string)
    requires PathToTile(path).Some?
    ensures var t := PathToTile(path).value;
            exists zs, xs, ys, fs, rest ::
              Decomposes(path, zs, xs, ys, fs, rest) &&
              t == Tile(DecimalValue(zs), DecimalValue(xs), DecimalValue(ys), fs)
  {
    var (zs, s1) := TakeDigits(path[1..], '/').value;
    var (xs, s2) := TakeDigits(s1, '/').value;
    var (ys, s3) := TakeDigits(s2, '.').value;
    var (fs, rest) := TakeFormat(s3).value;
    Reassemble(path, zs, xs, ys, fs, rest);
    assert Decomposes(path, zs, xs, ys, fs, rest);
  }

  /** Parse failure: None exactly when no prefix of the path has the pattern's shape. */
  lemma ParseNoneIff(path: string)
    ensures PathToTile(path).None? <==>
            forall zs, xs, ys, fs, rest :: !Decomposes(path, zs, xs, ys, fs, rest)
  {
    if PathToTile(path).Some? {
      ParseSound(path);
    } else {
      forall zs, xs, ys, fs, rest | Decomposes(path, zs, xs, ys, fs, rest)
        ensures false
      {
        ParseComplete(path, zs, xs, ys, fs, rest);
      }
    }
  }

  /** Printing a tile address in canonical decimal and parsing it back gives the same tile. */
  lemma ParsePrintRoundTrip(zoom: nat, x: nat, y: nat, format: string)
    requires |format| > 0 && AllIn(format, Word)
    ensures PathToTile("/" + Decimal(zoom) + "/" + Decimal(x) + "/" + Decimal(y) + "." + format)
            == Some(Tile(zoom, x, y, format))
  {
    var path := "/" + Decimal(zoom) + "/" + Decimal(x) + "/" + Decimal(y) + "." + format;
    assert path == path + [];
    ParseComplete(path, Decimal(zoom), Decimal(x), Decimal(y), format, []);
    DecimalRoundTrip(zoom);
    DecimalRoundTrip(x);
    DecimalRoundTrip(y);
  }

  /** Sample path: the top-right tile of zoom level 1. */
  lemma ParseExample(path: string)
    requires path == "/1/1/0.pbf"
    ensures PathToTile(path) == Some(Tile(1, 1, 0, "pbf"))
  {
    assert DecimalValue("1") == 1 && DecimalValue("0") == 0;
    ParseComplete(path, "1", "1", "0", "pbf", "");
  }

  /** Sample path: text after the format's word characters is ignored. */
  lemma ParseExampleExtension(path: string)
    requires path == "/1/1/0.pbf.gz"
    ensures PathToTile(path) == Some(Tile(1, 1, 0, "pbf"))
  {
    assert DecimalValue("1") == 1 && DecimalValue("0") == 0;
    ParseComplete(path, "1", "1", "0", "pbf", ".gz");
  }

  /** Sample path: a query string after the format is ignored too. */
  lemma ParseExampleQuery(path: string)
    requires path == "/1/1/0.pbf?a=1"
    ensures PathToTile(path) == Some(Tile(1, 1, 0, "pbf"))
  {
    assert DecimalValue("1") == 1 && DecimalValue("0") == 0;
    ParseComplete(path, "1", "1", "0", "pbf", "?a=1");
  }

  /** Sample path: leading zeros are accepted and dropped, as int() does. */
  lemma ParseExampleLeadingZeros(path: string)
    requires path == "/01/001/0.mvt"
    ensures PathToTile(path) == Some(Tile(1, 1, 0, "mvt"))
  {
    ZeroPaddedOne();
    assert DecimalValue("0") == 0;
    ParseComplete(path, "01", "001", "0", "mvt", "");
  }

  lemma ZeroPaddedOne()
    ensures DecimalValue("01") == 1 && DecimalValue("001") == 1
  {
    LeadingZero("1");
    LeadingZero("01");
    assert DecimalValue("1") == 1;
  }

  /** Sample paths that do not start with the pattern's shape. */
  lemma ParseExamplesRejected(noSlash: string, letter: string, empty: string)
    requires noSlash == "1/1/0.pbf" && letter == "/1/a/0.pbf" && empty == "/1//0.pbf"
    ensures PathToTile(noSlash).None?
    ensures PathToTile(letter).None?
    ensures PathToTile(empty).None?
  {
    assert letter[1..] == "1" + ['/'] + "a/0.pbf";
    TakeDigitsOf("1", '/', "a/0.pbf");
    assert empty[1..] == "1" + ['/'] + "/0.pbf";
    TakeDigitsOf("1", '/', "/0.pbf");
  }

  /** Sample path with a missing '.': the third digit run runs into the format. */
  lemma ParseExampleRejectedNoDot(path: string)
    requires path == "/1/1/0pbf"
    ensures PathToTile(path).None?
  {
    assert path[1..] == "1" + ['/'] + ("1" + ['/'] + "0pbf");
    TakeDigitsOf("1", '/', "1/0pbf");
    TakeDigitsOf("1", '/', "0pbf");
    RunLengthOf("0", "pbf", Digit);
  }

  /** Sample path with an empty format. */
  lemma ParseExampleRejectedNoFormat(path: string)
    requires path == "/1/1/0."
    ensures PathToTile(path).None?
  {
    assert path[1..] == "1" + ['/'] + ("1" + ['/'] + ("0" + ['.'] + ""));
    TakeDigitsOf("1", '/', "1/0.");
    TakeDigitsOf("1", '/', "0.");
    TakeDigitsOf("0", '.', "");
  }

  // ---------------------------------------------------------------------------
  // tileIsValid
  // ---------------------------------------------------------------------------

  /** 2^n for a natural exponent: Python's unbounded `2 ** n`. */
  function Pow2(n: nat): (r: nat)
    ensures r >= 1
  {
    if n == 0 then 1 else 2 * Pow2(n - 1)
  }

  /**
    The exponent of the smallest positive double, 2^-1074. Every power of two from
    there up to 2^-1 is a double exactly; below it, Python's `2 ** zoom` underflows to 0.0.
   */
  const SmallestFloatExponent: int := -1074

  /**
    `2 ** zoom` as Python computes it: an int for zoom >= 0, an exact float 2^zoom for
    a negative zoom down to SmallestFloatExponent, and 0.0 below that.
   */
  function WorldTileSize(zoom: int): (r: real)
    ensures r > 0.0 <==> zoom >= SmallestFloatExponent
    ensures r >= 0.0
    ensures zoom < 0 ==> r <= 0.5
  {
    if zoom >= 0 then Pow2(zoom) as real
    else if zoom >= SmallestFloatExponent then 1.0 / (Pow2(-zoom) as real)
    else 0.0
  }

  const Formats: seq<string> := ["pbf", "mvt"]

  /**
    tileIsValid: accepted format, and both coordinates inside [0, 2^zoom).
    ValidIff and ValidNegativeZoom give its exact meaning for every zoom.
   */
  predicate TileIsValid(t: Tile)
    ensures TileIsValid(t) ==>
            (t.format == "pbf" || t.format == "mvt") && 0 <= t.x && 0 <= t.y &&
            t.zoom >= SmallestFloatExponent
  {
    if t.format !in Formats then false
    else
      var size := WorldTileSize(t.zoom);
      if t.x as real >= size || t.y as real >= size then false
      else if t.x < 0 || t.y < 0 then false
      else true
  }

  /** The validity check in integer terms, for the zoom levels a path can name. */
  lemma ValidIff(t: Tile)
    requires t.zoom >= 0
    ensures TileIsValid(t) <==>
            (t.format == "pbf" || t.format == "mvt") &&
            0 <= t.x < Pow2(t.zoom) && 0 <= t.y < Pow2(t.zoom)
  {
  }

  /**
    A negative zoom (not reachable from a path) leaves only the tile (0, 0), and
    nothing at all once `2 ** zoom` has underflowed to 0.0.
   */
  lemma ValidNegativeZoom(t: Tile)
    requires t.zoom < 0
    ensures t.zoom >= SmallestFloatExponent ==>
            (TileIsValid(t) <==> (t.format == "pbf" || t.format == "mvt") && t.x == 0 && t.y == 0)
    ensures t.zoom < SmallestFloatExponent ==> !TileIsValid(t)
  {
  }

  lemma ValidExamples()
    ensures !TileIsValid(Tile(2, 4, 0, "pbf"))
    ensures !TileIsValid(Tile(1, 0, 0, "png"))
    ensures !TileIsValid(Tile(1, -1, 0, "pbf"))
    ensures !TileIsValid(Tile(1, 0, -1, "mvt"))
    ensures TileIsValid(Tile(1, 1, 0, "pbf"))
    ensures TileIsValid(Tile(2, 3, 3, "mvt"))
  {
  }
}

=== FILE: tile_service.dfy ===
/**
  The request pipeline of TileRequestHandler.do_GET up to the database call: parse
  the path, reject an invalid tile with a 400 response, compute the envelope, add
  the densification segment and derive the pixel affine of the tile query.
 */
module TileService {
  import opened Wrappers
  import opened TileAddress
  import opened Mercator
  import opened PixelAffine

  /**
    How a request fails. InvalidTilePath is the 400 response "invalid tile path",
    naming the offending path. EnvelopeOverflow is the OverflowError that
    tileToEnvelope raises for a valid tile of zoom 1024 or more: it escapes do_GET,
    and no response is sent.
   */
  datatype ServeError = InvalidTilePath(path: string) | EnvelopeOverflow(path: string)

  /** What the tile query of one request is built from. */
  datatype TileQuery = TileQuery(tile: Tile, bounds: Bounds, affine: Affine)

  /**
    do_GET up to the query: a path that does not parse, or parses to an invalid tile,
    is a bad request; a valid tile whose envelope overflows gets no response.
   */
  function HandleTilePath(path: string): (r: Result<TileQuery, ServeError>)
    ensures r.Failure? <==>
            PathToTile(path).None? || !TileIsValid(PathToTile(path).value) ||
            PathToTile(path).value.zoom > LargestFloatExponent
    ensures r.Failure? ==> r.error.path == path
    ensures r.Failure? ==>
            (r.error.InvalidTilePath? <==> PathToTile(path).None? || !TileIsValid(PathToTile(path).value))
    ensures r.Success? ==> r.value.tile == PathToTile(path).value
  {
    match PathToTile(path)
    case None => Failure(InvalidTilePath(path))
    case Some(tile) =>
      if !TileIsValid(tile) then Failure(InvalidTilePath(path))
      else if !EnvelopeDefined(tile.zoom) then Failure(EnvelopeOverflow(path))
      else
        var env := TileToEnvelope(tile);
        var bounds := EnvelopeToBounds(env);
        Success(TileQuery(tile, bounds, ProjVariables(bounds.env).value))
  }

  /**
    Everything a served request computes is consistent: the envelope lies in the
    world, the segment is a quarter of its side, and the affine takes the envelope's
    corners onto the corners of the pixel grid with the vertical axis flipped.
   */
  lemma ServedQueryGeometry(path: string)
    requires HandleTilePath(path).Success?
    ensures var q := HandleTilePath(path).value;
            var e := q.bounds.env;
            e == TileToEnvelope(q.tile) &&
            -WorldMercMax <= e.xmin < e.xmax <= WorldMercMax &&
            -WorldMercMax <= e.ymin < e.ymax <= WorldMercMax &&
            q.bounds.segSize > 0.0 && q.bounds.segSize * DensifyFactor == e.xmax - e.xmin &&
            q.affine.fx > 0.0 && q.affine.fy < 0.0 &&
            ToPixel(q.affine, Point(e.xmin, e.ymax)) == Point(0.0, 0.0) &&
            ToPixel(q.affine, Point(e.xmax, e.ymin)) == Point(Extent, Extent)
  {
    var q := HandleTilePath(path).value;
    EnvelopeWithinWorld(q.tile);
    TileSegment(q.tile);
    AffineScale(q.bounds.env);
    AffineCorners(q.bounds.env);
  }

  /**
    Proof step of TilePixelScale: for a square envelope of side world / n, the pixel
    scale and the segment measured in pixels.
   */
  lemma SquarePixelScale(e: Envelope, n: real)
    requires n >= 1.0
    requires e.xmax - e.xmin == WorldMercSize / n && e.ymax - e.ymin == WorldMercSize / n
    ensures var b := EnvelopeToBounds(e);
            var a := ProjVariables(b.env).value;
            a.fx == -a.fy == Extent * n / WorldMercSize &&
            b.segSize * a.fx == Extent / DensifyFactor
  {
    var w := e.xmax - e.xmin;
    assert Extent / w == Extent * n / WorldMercSize;
    assert (w / DensifyFactor) * (Extent / w) == Extent / DensifyFactor;
  }

  /**
    For a tile of zoom 0 <= z <= 1023, one pixel spans WorldMercSize / (Extent * 2^z) map units
    in both directions, and one densification segment spans Extent / DensifyFactor pixels.
   */
  lemma TilePixelScale(t: Tile)
    requires 0 <= t.zoom <= LargestFloatExponent
    ensures var b := EnvelopeToBounds(TileToEnvelope(t));
            var a := ProjVariables(b.env).value;
            a.fx == -a.fy == Extent * (Pow2(t.zoom) as real) / WorldMercSize &&
            b.segSize * a.fx == Extent / DensifyFactor
  {
    EnvelopeSize(t);
    SquarePixelScale(TileToEnvelope(t), Pow2(t.zoom) as real);
  }

  /**
    A canonical tile path is rejected with 400 exactly when its format is not accepted
    or a coordinate lies outside the pyramid at its zoom level. Otherwise it is served,
    with exactly its tile, when the zoom is at most 1023, and gets no response above.
   */
  lemma ServeRoundTrip(zoom: nat, x: nat, y: nat, format: string)
    requires |format| > 0 && AllIn(format, Word)
    ensures var r := HandleTilePath("/" + Decimal(zoom) + "/" + Decimal(x) + "/" + Decimal(y) + "." + format);
            var valid := (format == "pbf" || format == "mvt") && x < Pow2(zoom) && y < Pow2(zoom);
            (r.Success? <==> valid && zoom <= LargestFloatExponent) &&
            (r.Failure? ==> (r.error.InvalidTilePath? <==> !valid)) &&
            (r.Success? ==> r.value.tile == Tile(zoom, x, y, format))
  {
    ParsePrintRoundTrip(zoom, x, y, format);
    ValidIff(Tile(zoom, x, y, format));
  }

  /** Sample request: /1/1/0.pbf asks for the top-right quarter of the world. */
  lemma ServeExample(path: string)
    requires path == "/1/1/0.pbf"
    ensures HandleTilePath(path).Success?
    ensures HandleTilePath(path).value.bounds.env == Envelope(0.0, 0.0, WorldMercMax, WorldMercMax)
  {
    ParseExample(path);
    ValidIff(Tile(1, 1, 0, "pbf"));
    EnvelopeExample(Tile(1, 1, 0, "pbf"));
  }

  /** Sample request rejected with 400: x = 4 lies outside the 4 x 4 pyramid of zoom 2. */
  lemma ServeRejectsOutside(path: string)
    requires path == "/2/4/0.pbf"
    ensures HandleTilePath(path) == Failure(InvalidTilePath(path))
  {
    assert DecimalValue("2") == 2 && DecimalValue("4") == 4 && DecimalValue("0") == 0;
    ParseComplete(path, "2", "4", "0", "pbf", "");
    ValidIff(Tile(2, 4, 0, "pbf"));
  }

  /**
    A request of zoom 1024 or more for tile (0, 0) in an accepted format, such as
    /1024/0/0.pbf, passes tileIsValid, since 2 ** zoom is an exact int there, but
    the envelope's division overflows and no response is sent.
   */
  lemma ServeOverflow(zoom: nat, format: string)
    requires zoom > LargestFloatExponent
    requires format == "pbf" || format == "mvt"
    ensures var path := "/" + Decimal(zoom) + "/" + Decimal(0) + "/" + Decimal(0) + "." + format;
            PathToTile(path) == Some(Tile(zoom, 0, 0, format)) &&
            TileIsValid(Tile(zoom, 0, 0, format)) &&
            HandleTilePath(path) == Failure(EnvelopeOverflow(path))
  {
    ServeRoundTrip(zoom, 0, 0, format);
    ParsePrintRoundTrip(zoom, 0, 0, format);
  }

  /** Sample request rejected with 400: png is not a vector-tile format. */
  lemma ServeRejectsFormat(path: string)
    requires path == "/1/0/0.png"
    ensures HandleTilePath(path) == Failure(InvalidTilePath(path))
  {
    assert DecimalValue("1") == 1 && DecimalValue("0") == 0;
    ParseComplete(path, "1", "0", "0", "png", "");
    ValidIff(Tile(1, 0, 0, "png"));
  }
}

=== FILE: wrappers.dfy ===
/** Option and Result, the shapes of the tile server's "None" returns and error responses. */
module Wrappers {

  datatype Option<+T> = None | Some(value: T)

  datatype Result<+R, +E> = Success(value: R) | Failure(error: E)
}
